=== FILE: README.md ===
# God-Father Travels booking core in Dafny

This project models the part of the God-Father Travels backend that changes
state. It covers four things:

- booking creation, with its validation, idempotent retries, vehicle
  date-range reservation and safari seat decrement;
- payment start;
- the Pesapal payment callback, with its state machine on the payment
  status;
- the role-based permission checks; booking creation and payment start are
  modelled behind the `IsCustomerOrAdmin` gate their view sets declare.

**How the database is represented.** It is a value (`Models.Db`) with one
sequence per table plus a log of the background jobs enqueued with
`.delay(...)`.

- A primary key is the row's position in its sequence, so ids follow
  insertion order (the source's ids are random uuid4 values).
- Dates are day numbers, so the next day is `+1`.
- Money is an opaque integer. The core copies amounts but never does
  arithmetic on them.
- The handlers run against `Models.Store`, a class with one field per
  table. Each handler is a method proved equal to a pure specification
  function on `Db`.
- The lemmas state the properties about those functions:
  - a failure changes nothing;
  - a retry returns the same booking;
  - overlapping vehicle reservations are refused;
  - a repeated payment start is refused;
  - a repeated callback is a no-op;
  - every table constraint is kept.

**Table constraints.** `Models.Inv` states them:

- foreign keys point at existing rows;
- `Payment.booking` and `Invoice.payment` are one-to-one;
- `Payment.transaction_ref` is unique.

The schema deliberately leaves some things unconstrained, and the model does
the same. Nothing makes `(user, idempotency_key)` or `(vehicle, date)`
unique, and nothing bounds `seats_available`.

**The availability loop has four possible outcomes for each date.** The
conflict check before the loop makes the second of them unreachable.

- No row exists for that date: it creates a booked row.
- Exactly one row exists and it is already booked: "booked concurrently",
  and the transaction is rolled back.
- Exactly one free row exists: it sets that row to booked.
- More than one row exists: `get_or_create` fails (`MultipleRecords`), and
  the transaction is rolled back.

## Model

| member | source | states |
|---|---|---|
| Models.Store.constructor | api/models.py:96-143 | a fresh store holds the given vehicles and safari packages, no other rows, and satisfies the table constraints |
| Models.PaymentByReferenceUnique | api/models.py:142 | two payments with the same transaction reference are the same payment |
| Models.IdempotencyKeyNotUnique | api/models.py:119 | a database satisfying every constraint can hold two bookings of one user with the same idempotency key (the column is only indexed) |
| Models.AvailabilityAndSeatsUnconstrained | api/models.py:58-75 | a valid database can hold two availability rows for one vehicle and date, and a safari package with any seat count, negative included |
| Permissions.IsAdminOrReadOnly | api/permissions.py:3-10 | safe methods are always granted; any other method is granted exactly to an authenticated admin |
| Permissions.IsAuthenticatedOrReadOnly | api/permissions.py:13-20 | safe methods are always granted; any other method is granted exactly to an authenticated user |
| Permissions.IsOwnerOrAdmin | api/permissions.py:23-30 | the anonymous user has no role, so the check fails with an error; an admin is always granted; anyone else is granted exactly when they own the object, and never for an object without an owner |
| Permissions.IsCustomerOrAdmin | api/permissions.py:33-39 | granted exactly to authenticated customers and admins, whatever the method; staff are refused |
| Permissions.RoleBasedPermission | api/permissions.py:42-58 | safe methods are always granted; otherwise exactly users with role admin; the anonymous user only for safe methods |
| Permissions.AdminOrReadOnlyWithinAuthenticatedOrReadOnly | api/permissions.py:3-20 | every request IsAdminOrReadOnly grants, IsAuthenticatedOrReadOnly also grants |
| Permissions.RoleBasedAgreesWithAdminOrReadOnly | api/permissions.py:42-58 | RoleBasedPermission and IsAdminOrReadOnly decide every request alike |
| BookingCreate.Validate | api/serializers.py:170-179 | accepts exactly a request that names the resource its type needs and whose end date, when given, is not before the start; names which check failed otherwise |
| BookingCreate.FirstWithKey | api/serializers.py:188 | returns a booking of the user carrying the key (the earliest inserted one when several do), or none exactly when no booking carries it |
| BookingCreate.MarkFrom | api/serializers.py:212-223 | the marking loop only fails with "several rows" or "already booked"; it never shortens the table, and every existing row keeps its vehicle and date |
| BookingCreate.StepCreate | api/serializers.py:216 | a date with no row gets one new booked row, and the rest of the range is unaffected |
| BookingCreate.StepFlip | api/serializers.py:216-222 | a date with exactly one free row has that row set to booked, and the rest of the range is unaffected |
| BookingCreate.MarkFromEffect | api/serializers.py:198-223 | with no booked row in the range, the loop succeeds exactly when no date has two rows; it never reports a concurrent booking; on success every date of the range has a booked row of the vehicle, other rows are unchanged and every added row is a booked row in the range |
| BookingCreate.StampDetails | api/serializers.py:236-240 | the details keep every earlier key and gain `created_by_ip` (null when there is no address) and `created_at` |
| BookingCreate.VehicleSpec | api/serializers.py:195-223 | a failed vehicle reservation leaves the database unchanged; a successful one appends exactly the new pending booking, stamped with the origin address and time, and leaves safari packages alone |
| BookingCreate.SafariSpec | api/serializers.py:224-233 | a failed safari reservation leaves the database unchanged; a successful one appends exactly the new pending booking, stamped with the origin address and time, and leaves availability alone |
| BookingCreate.ReserveSpec | api/serializers.py:181-243 | a failure changes nothing; a retry with a key the user already used returns that booking and changes nothing; payments, invoices, jobs and vehicles are untouched; existing bookings are kept; the result is a booking of the requester |
| BookingCreate.ReserveKeepsInvariant | api/serializers.py:181-243 | creating a booking keeps every table constraint |
| BookingCreate.VehicleReservation | api/serializers.py:195-223 | a new vehicle booking is refused as unavailable exactly when a row in its range is booked; it never fails as booked concurrently; it succeeds exactly when there is no such row and no duplicate rows; on success every date in the range is booked and the booking is appended |
| BookingCreate.SafariReservation | api/serializers.py:224-233 | refused for lack of seats exactly when seats < pax (pax defaults to 1); on success the package's seats drop by exactly pax and stay non-negative; no other package and no availability row changes |
| BookingCreate.CreatedBookingIsPending | api/serializers.py:208-241 | a created booking is pending, belongs to the requester, keeps the key, party size (default 1) and end date, and records the origin address and creation time |
| BookingCreate.OverlappingReservationRefused | api/serializers.py:198-206 | after a vehicle is reserved for a range, any new request for it whose range overlaps is refused as unavailable |
| BookingCreate.RetryReturnsSameBooking | api/serializers.py:184-190 | a second request with the same non-empty key returns the same booking and changes nothing |
| BookingCreate.Create | api/serializers.py:181-243 | the method's outcome and new store are those of ReserveSpec, and the store stays valid |
| BookingCreate.ReserveVehicle | api/serializers.py:195-223 | the vehicle path's loop over the dates produces exactly VehicleSpec's outcome and rows; an error restores the rows it wrote |
| BookingCreate.ReserveSafari | api/serializers.py:224-233 | the safari path produces exactly SafariSpec's outcome; an error restores the seat counter |
| Views.PerformCreateSpec | api/views.py:122-135 | 403 exactly when `IsCustomerOrAdmin` refuses the requester, changing nothing; past the gate, a created booking, or one returned by a retry, gets exactly one e-mail job; a failure enqueues nothing and changes nothing |
| Views.PerformCreateAsWritten | api/views.py:133-135 | with the `user` keyword passed to `save`, every request that passes the gate and is not a retry fails and changes nothing |
| Views.AsWrittenRefusesFreshBooking | api/serializers.py:208 | on an empty calendar, the code as written refuses a one-day booking that the corrected handler accepts, books, and e-mails about |
| Views.PerformCreateSucceeds | api/views.py:126-135 | for a customer or administrator, the corrected handler succeeds, creating a booking owned by the requester, for a new vehicle booking with a free, duplicate-free range (and books that range) and for a safari booking with enough seats, enqueuing one e-mail |
| Views.PerformCreate | api/views.py:122-135 | the method's outcome and new store are those of PerformCreateSpec, and the store stays valid |
| Views.StartSpec | api/views.py:144-165 | 403 exactly when `IsCustomerOrAdmin` refuses the requester; otherwise 404 exactly when the booking does not exist or is not the requester's; 400 exactly when it already has a payment; a payment is created exactly when neither holds and the reference is unused; every refusal changes nothing |
| Views.StartCreatesOnePendingPayment | api/views.py:157-165 | a start appends exactly one pending "pesapal" payment in UGX for the booking's total price under the new reference, and changes nothing else |
| Views.SecondStartRefused | api/views.py:154-155 | after a successful start, another start for the same booking is refused with 400 and changes nothing |
| Views.StartKeepsInvariant | api/views.py:148-165 | payment start keeps every table constraint, including one payment per booking and unique references |
| Views.Start | api/views.py:144-165 | the method's outcome and new store are those of StartSpec, and the store stays valid |
| Views.StatusCode | api/views.py:243-266 | 400 only for a missing reference, 404 only for an unknown one, 200 for every other outcome |
| Views.IsCompleted | api/views.py:254 | a status counts as completed exactly when it has nine characters that upper-case to "COMPLETED" |
| Views.CompletedExactlyInAnyCase | api/views.py:254 | for every status string: it counts as completed exactly when it has nine characters, each being the matching letter of "COMPLETED" in upper or lower case |
| Views.CompletedInAnyCase | api/views.py:254 | "COMPLETED", "completed" and "Completed" count; "COMPLETE", "FAILED", the empty status and a missing status do not |
| Views.FindPayment | api/views.py:246-249 | finds a payment carrying the reference, or none exactly when no payment carries it |
| Views.FindsTheOnePayment | api/views.py:247 | the lookup by a payment's reference finds that payment |
| Views.Reconcile | api/views.py:238-266 | 400 exactly for a missing or empty reference, 404 exactly for an unknown one; those outcomes and "already processed" change nothing; no table other than payments, bookings and jobs changes |
| Views.ReconcileAlreadyProcessed | api/views.py:251-252 | a payment in `success` is left alone and the answer is "already processed" |
| Views.ReconcileConfirms | api/views.py:254-262 | "COMPLETED" moves a payment that is not yet successful to `success` and its booking to `confirmed`, enqueues one invoice job and one e-mail job in that order, and touches no other payment or booking |
| Views.RefundedPaymentReconfirmed | api/views.py:251-256 | a refunded or failed payment is moved back to `success` by a "completed" callback |
| Views.ReconcileFails | api/views.py:263-266 | any other or missing status marks the payment `failed` and leaves bookings and jobs unchanged |
| Views.ReconcileKeepsInvariant | api/views.py:238-266 | the callback keeps every table constraint |
| Views.ReconcileIdempotent | api/views.py:251-262 | replaying a callback that confirmed a payment answers "already processed" and changes nothing, whatever status the replay carries |
| Views.PesapalWebhook | api/views.py:235-266 | reading the reference and status from the body, or from the query string when the body is empty, the method's outcome and new store are those of Reconcile, and the store stays valid |

## Left out

- Row locks (`select_for_update`) and concurrency: each operation is one atomic step. The "booked concurrently" branch of the loop is modelled, and it is proved unreachable once the conflict check has passed.
- BookingCreate.FirstWithKey: among several bookings of one user with the same idempotency key, the model returns the earliest inserted one, while `.first()` on the unordered query returns the one with the smallest uuid4 primary key. Ids are positions here, so the uuid order is not represented.
- Timestamps, the request's address and the uuid4 reference are parameters (`now`, `ip`, `txRef`). `created_at` and `auto_now_add` columns are not stored.
- `Decimal` prices are opaque integers.
- Dates are integers. Calendar arithmetic is `+1`.
- BookingCreate.VehicleReservation: day numbers are unbounded, so a vehicle range ending on 9999-12-31 succeeds in the model. In the source, `cur += timedelta(days=1)` after that last day raises OverflowError inside the transaction, and the whole booking is rolled back.
- Upper-casing (`Views.Upper`) covers ASCII letters only. This changes no result of `Views.IsCompleted`: no other character upper-cases to a letter of "COMPLETED".
- An `end_date` sent explicitly as null is not modelled. `validated_data.get("end_date", start)` would then give None, and the date comparison would raise.
- The Pesapal link signing and the response body of `start` are not modelled (api/views.py:167-193). They are an HMAC and a URL; the reference and status the response carries are modelled.
- The bodies of the background jobs (api/tasks.py) are not modelled: e-mail, PDF invoice generation and S3 upload. Only the fact that a job is enqueued, and with which id, is modelled.
- Caching, the read-only and CRUD viewsets, filters, the S3 presigned upload view, the admin, settings and URL routing are not modelled. This includes the `payment_webhook` name that api/urls.py imports but api/views.py does not define.
- HTTP method dispatch is not modelled: a non-POST request to the callback gets 405. Authentication itself (sessions, tokens) is not modelled: the requester arrives as a `Permissions.Requester`.
- Validation done by the serializer fields before `validate` is reduced to `BookingCreate.RequestRefsExist`: existing related keys. Field types, a blank idempotency key, and a malformed `booking_id` passed to `start` are not modelled.
- `RoleBasedPermission.admin_actions` is declared but never read, so it has no counterpart.
- A `DuplicateReference` outcome of `Views.Start` stands for the database refusing a reused uuid4 reference (an error response). With fresh uuids it does not occur.

## Findings

| source | as written | input that shows it | evidently intended | confidence | as-written member | corrected member |
|---|---|---|---|---|---|---|
| api/views.py:134 with api/serializers.py:208,233 | `perform_create` calls `serializer.save(user=request.user)`, which adds a `user` entry to `validated_data`; `create` then calls `Booking.objects.create(user=user, **validated_data, ...)`, which raises a TypeError (multiple values for keyword argument `user`) | a first booking request for any free vehicle or any safari with seats, e.g. one day on a vehicle with no availability rows | the booking is created for the requester, once | high (not executed) | Views.PerformCreateAsWritten, Views.AsWrittenRefusesFreshBooking | Views.PerformCreate, Views.PerformCreateSucceeds |

=== FILE: booking_create.dfy ===
/** Booking creation (BookingCreateSerializer in api/serializers.py):
    request validation, the idempotency short-circuit, the vehicle date-range
    reservation and the safari seat decrement, all inside one transaction
    that is rolled back on any error. */
module BookingCreate {
  import opened Models

  /** The serializer's validated data for a new booking. `endDate` and `pax`
      are None when the client left them out. `userKeyword` is a "user"
      entry merged in by a caller of `save(user=...)`; the serializer's own
      fields never supply one, since `user` is read-only there. */
  datatype BookingRequest = BookingRequest(
    bookingType: BookingType,
    vehicle: Option<VehicleId>,
    safari: Option<SafariId>,
    startDate: Date,
    endDate: Option<Date>,
    pax: Option<nat>,
    totalPrice: Money,
    idempotencyKey: Option<string>,
    userKeyword: Option<UserId>)

  datatype ValidationError = VehicleRequired | SafariRequired | EndBeforeStart

  /** Every way `create` can fail once validation has passed; each one rolls
      the transaction back. */
  datatype CreateError =
    | Unavailable            // a date in the range already has a booked row
    | BookedConcurrently     // get_or_create found an existing row already booked
    | MultipleRecords        // get_or_create found two rows for one (vehicle, date)
    | NotEnoughSeats
    | DuplicateUserKeyword   // `user` reaches Booking.objects.create twice (a TypeError)

  /** The resource the booking type asks for was supplied. */
  predicate ResourceGiven(req: BookingRequest) {
    match req.bookingType
    case VehicleBooking => req.vehicle.Some?
    case SafariBooking => req.safari.Some?
  }

  /** `validated_data.get("end_date", start)`. */
  function EndOf(req: BookingRequest): Date {
    req.endDate.GetOr(req.startDate)
  }

  /** `validate`: the resource matching the booking type must be present,
      and a given end date must not precede the start date. Supplying both
      resources is accepted. */
  function Validate(req: BookingRequest): (r: Result<BookingRequest, ValidationError>)
    ensures r.Ok? ==> r.value == req
    ensures r.Ok? <==> ResourceGiven(req) && (req.endDate.Some? ==> req.startDate <= req.endDate.value)
    ensures r.Ok? ==> req.startDate <= EndOf(req)
    ensures r == Err(VehicleRequired) <==> req.bookingType == VehicleBooking && req.vehicle.None?
    ensures r == Err(SafariRequired) <==> req.bookingType == SafariBooking && req.safari.None?
  {
    if req.bookingType == VehicleBooking && req.vehicle.None? then Err(VehicleRequired)
    else if req.bookingType == SafariBooking && req.safari.None? then Err(SafariRequired)
    else if req.endDate.Some? && req.endDate.value < req.startDate then Err(EndBeforeStart)
    else Ok(req)
  }

  /** The vehicle and safari the request names exist (the framework checks
      related primary keys before `validate` runs). */
  predicate RequestRefsExist(db: Db, req: BookingRequest) {
    && (req.vehicle.Some? ==> req.vehicle.value < |db.vehicles|)
    && (req.safari.Some? ==> req.safari.value < |db.safaris|)
  }

  // ---------------------------------------------------------------------
  // Idempotency lookup
  // ---------------------------------------------------------------------

  predicate HasKey(b: Booking, user: UserId, key: string) {
    b.user == user && b.idempotencyKey == Some(key)
  }

  /** `Booking.objects.filter(user=user, idempotency_key=key).first()`:
      a booking of the user carrying the key. Among several such bookings
      the model returns the one inserted first, whereas the query orders by
      the random uuid4 primary key. */
  function FirstWithKey(bookings: seq<Booking>, user: UserId, key: string): (r: Option<BookingId>)
    ensures r.Some? ==> r.value < |bookings| && HasKey(bookings[r.value], user, key)
    ensures r.Some? ==> forall j :: 0 <= j < r.value ==> !HasKey(bookings[j], user, key)
    ensures r.None? <==> forall j :: 0 <= j < |bookings| ==> !HasKey(bookings[j], user, key)
    decreases |bookings|
  {
    if |bookings| == 0 then None
    else
      var last := |bookings| - 1;
      match FirstWithKey(bookings[..last], user, key)
      case Some(i) => Some(i)
      case None => if HasKey(bookings[last], user, key) then Some(last) else None
  }

  /** The booking an idempotent retry returns: only a non-empty key is
      looked up. */
  function Replayed(bookings: seq<Booking>, user: UserId, key: Option<string>): Option<BookingId> {
    if key.Some? && key.value != "" then FirstWithKey(bookings, user, key.value) else None
  }

  // ---------------------------------------------------------------------
  // Vehicle availability rows
  // ---------------------------------------------------------------------

  predicate OnDate(row: VehicleAvailability, v: VehicleId, d: Date) {
    row.vehicle == v && row.date == d
  }

  predicate InRange(row: VehicleAvailability, v: VehicleId, lo: Date, hi: Date) {
    row.vehicle == v && lo <= row.date <= hi
  }

  /** The conflict query: some row of vehicle `v` dated within [lo, hi] is
      booked. */
  predicate ConflictExists(a: seq<VehicleAvailability>, v: VehicleId, lo: Date, hi: Date) {
    exists i :: 0 <= i < |a| && InRange(a[i], v, lo, hi) && a[i].isBooked
  }

  /** No date in [lo, hi] has two rows for vehicle `v`. */
  predicate NoDuplicateRows(a: seq<VehicleAvailability>, v: VehicleId, lo: Date, hi: Date) {
    forall i, j :: 0 <= i < j < |a| && InRange(a[i], v, lo, hi) ==> !OnDate(a[j], v, a[i].date)
  }

  /** Vehicle `v` has a booked row dated `d`. */
  predicate BookedOn(a: seq<VehicleAvailability>, v: VehicleId, d: Date) {
    exists i :: 0 <= i < |a| && a[i] == VehicleAvailability(v, d, true)
  }

  /** `a2` is `a` with every row of `v` in [lo, hi] set to booked, every other
      row untouched, and only booked rows of `v` in [lo, hi] added. */
  ghost predicate FlippedIn(a: seq<VehicleAvailability>, a2: seq<VehicleAvailability>, v: VehicleId, lo: Date, hi: Date) {
    && |a| <= |a2|
    && (forall i :: 0 <= i < |a| ==>
          a2[i] == (if InRange(a[i], v, lo, hi) then a[i].(isBooked := true) else a[i]))
    && (forall i :: |a| <= i < |a2| ==> InRange(a2[i], v, lo, hi) && a2[i].isBooked)
  }

  /** The outcome of a successful reservation of [lo, hi]. */
  ghost predicate Reserved(a: seq<VehicleAvailability>, a2: seq<VehicleAvailability>, v: VehicleId, lo: Date, hi: Date) {
    && FlippedIn(a, a2, v, lo, hi)
    && (forall d :: lo <= d <= hi ==> BookedOn(a2, v, d))
  }

  /** Positions of the rows of vehicle `v` dated `d`, in increasing order
      (the rows `get_or_create(vehicle=v, date=d)` finds). */
  function Matching(a: seq<VehicleAvailability>, v: VehicleId, d: Date): (r: seq<nat>)
    ensures forall k :: 0 <= k < |r| ==> r[k] < |a| && OnDate(a[r[k]], v, d)
    ensures forall i :: 0 <= i < |a| && OnDate(a[i], v, d) ==> i in r
    ensures forall k, l :: 0 <= k < l < |r| ==> r[k] < r[l]
    decreases |a|
  {
    if |a| == 0 then []
    else
      var last := |a| - 1;
      Matching(a[..last], v, d) + (if OnDate(a[last], v, d) then [last] else [])
  }

  /** One `get_or_create(vehicle=v, date=d, defaults={"is_booked": True})`
      followed by the flip of an existing unbooked row. */
  function GetOrCreateBooked(a: seq<VehicleAvailability>, v: VehicleId, d: Date): Result<seq<VehicleAvailability>, CreateError> {
    var hits := Matching(a, v, d);
    if |hits| == 0 then Ok(a + [VehicleAvailability(v, d, true)])
    else if |hits| > 1 then Err(MultipleRecords)
    else if a[hits[0]].isBooked then Err(BookedConcurrently)
    else Ok(a[hits[0] := a[hits[0]].(isBooked := true)])
  }

  /** The rows after the marking loop has walked the days `cur` to `hi`. */
  function MarkFrom(a: seq<VehicleAvailability>, v: VehicleId, cur: Date, hi: Date): (r: Result<seq<VehicleAvailability>, CreateError>)
    ensures r.Err? ==> r.error == MultipleRecords || r.error == BookedConcurrently
    ensures r.Ok? ==> |a| <= |r.value|
    ensures r.Ok? ==> forall i :: 0 <= i < |a| ==> r.value[i].vehicle == a[i].vehicle && r.value[i].date == a[i].date
    decreases hi + 1 - cur
  {
    if cur > hi then Ok(a)
    else
      match GetOrCreateBooked(a, v, cur)
      case Err(e) => Err(e)
      case Ok(a1) => MarkFrom(a1, v, cur + 1, hi)
  }

  /** First day of the loop when no row exists yet: a booked row is added. */
  lemma {:induction false} StepCreate(a: seq<VehicleAvailability>, v: VehicleId, lo: Date, hi: Date)
    requires lo <= hi && |Matching(a, v, lo)| == 0
    requires !ConflictExists(a, v, lo, hi)
    ensures var a1 := a + [VehicleAvailability(v, lo, true)];
      && GetOrCreateBooked(a, v, lo) == Ok(a1)
      && !ConflictExists(a1, v, lo + 1, hi)
      && (NoDuplicateRows(a1, v, lo + 1, hi) <==> NoDuplicateRows(a, v, lo, hi))
      && (forall a2 :: Reserved(a1, a2, v, lo + 1, hi) ==> Reserved(a, a2, v, lo, hi))
  {
    var row := VehicleAvailability(v, lo, true);
    var a1 := a + [row];
    assert forall i :: 0 <= i < |a| ==> !OnDate(a[i], v, lo);
    assert forall i :: 0 <= i < |a| ==> a1[i] == a[i];
    forall a2 | Reserved(a1, a2, v, lo + 1, hi) ensures Reserved(a, a2, v, lo, hi) {
      assert a2[|a|] == a1[|a|] == row;
      forall d | lo <= d <= hi ensures BookedOn(a2, v, d) {
        if d == lo {
          assert a2[|a|] == VehicleAvailability(v, d, true);
        }
      }
    }
  }

  /** First day of the loop when exactly one row exists: it is unbooked and
      gets flipped. */
  lemma {:induction false} StepFlip(a: seq<VehicleAvailability>, v: VehicleId, lo: Date, hi: Date)
    requires lo <= hi && |Matching(a, v, lo)| == 1
    requires !ConflictExists(a, v, lo, hi)
    ensures var h := Matching(a, v, lo)[0];
      var a1 := a[h := a[h].(isBooked := true)];
      && GetOrCreateBooked(a, v, lo) == Ok(a1)
      && !ConflictExists(a1, v, lo + 1, hi)
      && (NoDuplicateRows(a1, v, lo + 1, hi) <==> NoDuplicateRows(a, v, lo, hi))
      && (forall a2 :: Reserved(a1, a2, v, lo + 1, hi) ==> Reserved(a, a2, v, lo, hi))
  {
    var hits := Matching(a, v, lo);
    var h := hits[0];
    assert OnDate(a[h], v, lo) && InRange(a[h], v, lo, hi);
    assert !a[h].isBooked;
    var a1 := a[h := a[h].(isBooked := true)];
    assert forall i :: 0 <= i < |a| && OnDate(a[i], v, lo) ==> i == h by {
      forall i | 0 <= i < |a| && OnDate(a[i], v, lo) ensures i == h {
        assert i in hits;
      }
    }
    if NoDuplicateRows(a1, v, lo + 1, hi) {
      forall i, j | 0 <= i < j < |a| && InRange(a[i], v, lo, hi) ensures !OnDate(a[j], v, a[i].date) {
        assert a1[i].vehicle == a[i].vehicle && a1[i].date == a[i].date;
        assert a1[j].vehicle == a[j].vehicle && a1[j].date == a[j].date;
        if a[i].date == lo {
          assert i == h;
        } else {
          assert InRange(a1[i], v, lo + 1, hi);
          assert !OnDate(a1[j], v, a1[i].date);
        }
      }
    }
    forall a2 | Reserved(a1, a2, v, lo + 1, hi) ensures Reserved(a, a2, v, lo, hi) {
      assert a2[h] == a1[h] == VehicleAvailability(v, lo, true);
      forall i | 0 <= i < |a| ensures a2[i] == (if InRange(a[i], v, lo, hi) then a[i].(isBooked := true) else a[i]) {
        if i != h {
          assert a1[i] == a[i];
        }
      }
      forall d | lo <= d <= hi ensures BookedOn(a2, v, d) {
        if d == lo {
          assert a2[h] == VehicleAvailability(v, d, true);
        }
      }
    }
  }

  /** The marking loop over [lo, hi], started after the conflict check found
      no booked row there: it fails exactly when some date has two rows for
      the vehicle, it never reaches the "booked concurrently" branch, and on
      success every date in range has a booked row, the vehicle's rows in
      range are booked and every other row is untouched. */
  lemma {:induction false} MarkFromEffect(a: seq<VehicleAvailability>, v: VehicleId, lo: Date, hi: Date)
    requires !ConflictExists(a, v, lo, hi)
    ensures MarkFrom(a, v, lo, hi).Ok? <==> NoDuplicateRows(a, v, lo, hi)
    ensures MarkFrom(a, v, lo, hi) != Err(BookedConcurrently)
    ensures MarkFrom(a, v, lo, hi).Ok? ==> Reserved(a, MarkFrom(a, v, lo, hi).value, v, lo, hi)
    decreases hi + 1 - lo
  {
    if lo > hi {
      assert MarkFrom(a, v, lo, hi) == Ok(a);
    } else {
      var hits := Matching(a, v, lo);
      if |hits| == 0 {
        var a1 := a + [VehicleAvailability(v, lo, true)];
        StepCreate(a, v, lo, hi);
        assert MarkFrom(a, v, lo, hi) == MarkFrom(a1, v, lo + 1, hi);
        MarkFromEffect(a1, v, lo + 1, hi);
      } else if |hits| == 1 {
        var h := hits[0];
        var a1 := a[h := a[h].(isBooked := true)];
        StepFlip(a, v, lo, hi);
        assert MarkFrom(a, v, lo, hi) == MarkFrom(a1, v, lo + 1, hi);
        MarkFromEffect(a1, v, lo + 1, hi);
      } else {
        assert GetOrCreateBooked(a, v, lo) == Err(MultipleRecords);
        assert hits[0] < hits[1] && OnDate(a[hits[0]], v, lo) && OnDate(a[hits[1]], v, lo);
        assert InRange(a[hits[0]], v, lo, hi);
      }
    }
  }

  // ---------------------------------------------------------------------
  // The created booking
  // ---------------------------------------------------------------------

  /** `details.update({"created_by_ip": ..., "created_at": ...})` on
      `details or {}`. */
  function StampDetails(d: Option<Details>, ip: Option<string>, now: string): (r: Details)
    ensures r.Keys == (if d.Some? then d.value.Keys else {}) + {"created_by_ip", "created_at"}
    ensures r["created_by_ip"] == (if ip.Some? then JString(ip.value) else JNull)
    ensures r["created_at"] == JString(now)
    ensures d.Some? ==> forall k :: k in d.value && k != "created_by_ip" && k != "created_at" ==> r[k] == d.value[k]
  {
    var base := if d.Some? then d.value else map[];
    base["created_by_ip" := (if ip.Some? then JString(ip.value) else JNull)]["created_at" := JString(now)]
  }

  /** `Booking.objects.create(user=user, **validated_data, status="pending",
      idempotency_key=key)`: unspecified columns take their defaults. */
  function NewBooking(user: UserId, req: BookingRequest): Booking {
    Booking(user, req.bookingType, req.vehicle, req.safari, req.startDate, req.endDate,
            req.pax.GetOr(DefaultPax), req.totalPrice, Pending, req.idempotencyKey, None)
  }

  function Stamped(b: Booking, ip: Option<string>, now: string): Booking {
    b.(details := Some(StampDetails(b.details, ip, now)))
  }

  // ---------------------------------------------------------------------
  // `create` as a transformation of the database
  // ---------------------------------------------------------------------

  /** The vehicle path inside the transaction: the conflict query, the
      booking row, then the marking loop. */
  function VehicleSpec(db: Db, user: UserId, req: BookingRequest, ip: Option<string>, now: string)
    : (res: (Result<BookingId, CreateError>, Db))
    requires req.vehicle.Some?
    ensures res.0.Err? ==> res.1 == db
    ensures res.0.Ok? ==> res.0.value == |db.bookings| && res.1.safaris == db.safaris
    ensures res.0.Ok? ==> res.1.bookings == db.bookings + [Stamped(NewBooking(user, req), ip, now)]
  {
    var v := req.vehicle.value;
    if ConflictExists(db.availability, v, req.startDate, EndOf(req)) then (Err(Unavailable), db)
    else if req.userKeyword.Some? then (Err(DuplicateUserKeyword), db)
    else
      match MarkFrom(db.availability, v, req.startDate, EndOf(req))
      case Err(e) => (Err(e), db)
      case Ok(marked) =>
        (Ok(|db.bookings|), db.(availability := marked, bookings := db.bookings + [Stamped(NewBooking(user, req), ip, now)]))
  }

  /** The safari path inside the transaction: the seat check, the
      decrement, then the booking row. */
  function SafariSpec(db: Db, user: UserId, req: BookingRequest, ip: Option<string>, now: string)
    : (res: (Result<BookingId, CreateError>, Db))
    requires req.safari.Some? && req.safari.value < |db.safaris|
    ensures res.0.Err? ==> res.1 == db
    ensures res.0.Ok? ==> res.0.value == |db.bookings| && res.1.availability == db.availability
    ensures res.0.Ok? ==> res.1.bookings == db.bookings + [Stamped(NewBooking(user, req), ip, now)]
  {
    var s := req.safari.value;
    var pax := req.pax.GetOr(DefaultPax);
    if db.safaris[s].seatsAvailable < pax then (Err(NotEnoughSeats), db)
    else if req.userKeyword.Some? then (Err(DuplicateUserKeyword), db)
    else
      (Ok(|db.bookings|),
       db.(safaris := db.safaris[s := db.safaris[s].(seatsAvailable := db.safaris[s].seatsAvailable - pax)],
           bookings := db.bookings + [Stamped(NewBooking(user, req), ip, now)]))
  }

  /** The outcome of `create` and the database after it; `ip` is the
      request's REMOTE_ADDR and `now` the ISO timestamp of the clock. A
      failure leaves the database exactly as it was, and a retry with a key
      already used by the requester returns the earlier booking unchanged. */
  function ReserveSpec(db: Db, user: UserId, req: BookingRequest, ip: Option<string>, now: string)
    : (res: (Result<BookingId, CreateError>, Db))
    requires Validate(req).Ok? && RequestRefsExist(db, req)
    ensures res.0.Err? ==> res.1 == db
    ensures Replayed(db.bookings, user, req.idempotencyKey).Some? ==>
      res == (Ok(Replayed(db.bookings, user, req.idempotencyKey).value), db)
    ensures res.1.vehicles == db.vehicles && res.1.payments == db.payments
    ensures res.1.invoices == db.invoices && res.1.tasks == db.tasks
    ensures res.0.Ok? ==> res.0.value < |res.1.bookings| && res.1.bookings[res.0.value].user == user
    ensures |db.bookings| <= |res.1.bookings| && res.1.bookings[..|db.bookings|] == db.bookings
  {
    var replay := Replayed(db.bookings, user, req.idempotencyKey);
    if replay.Some? then (Ok(replay.value), db)
    else if req.bookingType == VehicleBooking then VehicleSpec(db, user, req, ip, now)
    else SafariSpec(db, user, req, ip, now)
  }

  /** A reservation keeps every table constraint. */
  lemma ReserveKeepsInvariant(db: Db, user: UserId, req: BookingRequest, ip: Option<string>, now: string)
    requires Inv(db) && Validate(req).Ok? && RequestRefsExist(db, req)
    ensures Inv(ReserveSpec(db, user, req, ip, now).1)
  {
    var (r, db2) := ReserveSpec(db, user, req, ip, now);
    if r.Ok? && db2 != db && req.bookingType == VehicleBooking {
      MarkFromEffect(db.availability, req.vehicle.value, req.startDate, EndOf(req));
    }
    if r.Ok? && db2 != db {
      assert BookingRefsValid(db2, db2.bookings[|db.bookings|]);
      assert forall i :: 0 <= i < |db2.bookings| ==> BookingRefsValid(db2, db2.bookings[i]) by {
        forall i | 0 <= i < |db2.bookings| ensures BookingRefsValid(db2, db2.bookings[i]) {
          if i < |db.bookings| {
            assert db2.bookings[i] == db.bookings[i];
            assert BookingRefsValid(db, db.bookings[i]);
          }
        }
      }
      assert forall i :: 0 <= i < |db2.tasks| ==> TaskRefsValid(db2, db2.tasks[i]) by {
        forall i | 0 <= i < |db2.tasks| ensures TaskRefsValid(db2, db2.tasks[i]) {
          assert TaskRefsValid(db, db.tasks[i]);
        }
      }
    }
  }

  /** Vehicle path of a request that is not a retry: it is refused as
      unavailable exactly when a date in [start, end] (end defaulting to
      start) has a booked row; the "booked concurrently" error never occurs;
      it succeeds exactly when moreover the vehicle has no duplicate rows in
      range (and `user` is not passed twice); a success books every date of
      the range and changes no other row, no seat counter and no earlier
      booking. */
  lemma VehicleReservation(db: Db, user: UserId, req: BookingRequest, ip: Option<string>, now: string)
    requires Validate(req).Ok? && RequestRefsExist(db, req)
    requires req.bookingType == VehicleBooking
    requires Replayed(db.bookings, user, req.idempotencyKey).None?
    ensures var (r, db2) := ReserveSpec(db, user, req, ip, now);
      && (r == Err(Unavailable) <==> ConflictExists(db.availability, req.vehicle.value, req.startDate, EndOf(req)))
      && r != Err(BookedConcurrently)
      && (r.Ok? <==> !ConflictExists(db.availability, req.vehicle.value, req.startDate, EndOf(req))
                     && req.userKeyword.None?
                     && NoDuplicateRows(db.availability, req.vehicle.value, req.startDate, EndOf(req)))
      && (r.Ok? ==>
            && r.value == |db.bookings|
            && Reserved(db.availability, db2.availability, req.vehicle.value, req.startDate, EndOf(req))
            && db2.safaris == db.safaris
            && db2.bookings == db.bookings + [Stamped(NewBooking(user, req), ip, now)])
  {
    var v := req.vehicle.value;
    var lo, hi := req.startDate, EndOf(req);
    assert ReserveSpec(db, user, req, ip, now) == VehicleSpec(db, user, req, ip, now);
    var (r, db2) := VehicleSpec(db, user, req, ip, now);
    if ConflictExists(db.availability, v, lo, hi) {
      assert r == Err(Unavailable);
    } else if req.userKeyword.Some? {
      assert r == Err(DuplicateUserKeyword);
    } else {
      MarkFromEffect(db.availability, v, lo, hi);
      var m := MarkFrom(db.availability, v, lo, hi);
      if m.Ok? {
        assert r == Ok(|db.bookings|) && db2.availability == m.value;
      } else {
        assert r == Err(m.error);
      }
    }
  }

  /** Safari path of a request that is not a retry: it is refused for lack
      of seats exactly when `seats_available < pax` (pax defaulting to 1);
      on success that package's counter drops by exactly `pax` and stays
      non-negative, and no other package and no availability row changes. */
  lemma SafariReservation(db: Db, user: UserId, req: BookingRequest, ip: Option<string>, now: string)
    requires Validate(req).Ok? && RequestRefsExist(db, req)
    requires req.bookingType == SafariBooking
    requires Replayed(db.bookings, user, req.idempotencyKey).None?
    ensures var (r, db2) := ReserveSpec(db, user, req, ip, now);
      var s := req.safari.value;
      var pax := req.pax.GetOr(DefaultPax);
      && (r == Err(NotEnoughSeats) <==> db.safaris[s].seatsAvailable < pax)
      && (r.Ok? <==> db.safaris[s].seatsAvailable >= pax && req.userKeyword.None?)
      && (r.Ok? ==>
            && |db2.safaris| == |db.safaris|
            && db2.safaris[s].seatsAvailable == db.safaris[s].seatsAvailable - pax >= 0
            && (forall t :: 0 <= t < |db.safaris| && t != s ==> db2.safaris[t] == db.safaris[t])
            && db2.availability == db.availability
            && db2.bookings == db.bookings + [Stamped(NewBooking(user, req), ip, now)])
  {
  }

  /** A booking created by `create` is pending, belongs to the requester,
      carries the supplied idempotency key and party size (1 when absent),
      and its details hold the origin address and creation time. */
  lemma CreatedBookingIsPending(db: Db, user: UserId, req: BookingRequest, ip: Option<string>, now: string)
    requires Validate(req).Ok? && RequestRefsExist(db, req)
    requires Replayed(db.bookings, user, req.idempotencyKey).None?
    requires ReserveSpec(db, user, req, ip, now).0.Ok?
    ensures var (r, db2) := ReserveSpec(db, user, req, ip, now);
      var b := db2.bookings[r.value];
      && r.value == |db.bookings| && |db2.bookings| == |db.bookings| + 1
      && b.status == Pending && b.user == user
      && b.idempotencyKey == req.idempotencyKey
      && b.pax == req.pax.GetOr(DefaultPax)
      && b.endDate == req.endDate
      && b.details.Some?
      && b.details.value["created_by_ip"] == (if ip.Some? then JString(ip.value) else JNull)
      && b.details.value["created_at"] == JString(now)
  {
    if req.bookingType == VehicleBooking {
      VehicleReservation(db, user, req, ip, now);
    }
  }

  /** After a vehicle has been reserved for [start, end], any later request
      for that vehicle whose range overlaps it is refused as unavailable: no
      date can be booked by two reservations. */
  lemma {:induction false} OverlappingReservationRefused(
    db: Db, user: UserId, req: BookingRequest, ip: Option<string>, now: string,
    user2: UserId, req2: BookingRequest, ip2: Option<string>, now2: string)
    requires Validate(req).Ok? && RequestRefsExist(db, req)
    requires req.bookingType == VehicleBooking
    requires Replayed(db.bookings, user, req.idempotencyKey).None?
    requires ReserveSpec(db, user, req, ip, now).0.Ok?
    requires Validate(req2).Ok? && RequestRefsExist(ReserveSpec(db, user, req, ip, now).1, req2)
    requires req2.bookingType == VehicleBooking && req2.vehicle == req.vehicle
    requires Replayed(ReserveSpec(db, user, req, ip, now).1.bookings, user2, req2.idempotencyKey).None?
    requires req2.startDate <= EndOf(req) && req.startDate <= EndOf(req2)
    ensures ReserveSpec(ReserveSpec(db, user, req, ip, now).1, user2, req2, ip2, now2).0 == Err(Unavailable)
  {
    var db2 := ReserveSpec(db, user, req, ip, now).1;
    var v := req.vehicle.value;
    VehicleReservation(db, user, req, ip, now);
    var d := if req.startDate < req2.startDate then req2.startDate else req.startDate;
    assert BookedOn(db2.availability, v, d);
    var i :| 0 <= i < |db2.availability| && db2.availability[i] == VehicleAvailability(v, d, true);
    assert InRange(db2.availability[i], v, req2.startDate, EndOf(req2));
    assert ConflictExists(db2.availability, v, req2.startDate, EndOf(req2));
  }

  /** A retry carrying the same non-empty idempotency key returns the same
      booking and changes nothing, whatever else the retried request says. */
  lemma {:induction false} RetryReturnsSameBooking(
    db: Db, user: UserId, req: BookingRequest, ip: Option<string>, now: string,
    req2: BookingRequest, ip2: Option<string>, now2: string)
    requires Validate(req).Ok? && RequestRefsExist(db, req)
    requires req.idempotencyKey.Some? && req.idempotencyKey.value != ""
    requires ReserveSpec(db, user, req, ip, now).0.Ok?
    requires Validate(req2).Ok? && RequestRefsExist(ReserveSpec(db, user, req, ip, now).1, req2)
    requires req2.idempotencyKey == req.idempotencyKey
    ensures var (r, db2) := ReserveSpec(db, user, req, ip, now);
      ReserveSpec(db2, user, req2, ip2, now2) == (r, db2)
  {
    var (r, db2) := ReserveSpec(db, user, req, ip, now);
    var key := req.idempotencyKey.value;
    if FirstWithKey(db.bookings, user, key).None? {
      assert db2.bookings == db.bookings + [db2.bookings[r.value]];
      assert HasKey(db2.bookings[r.value], user, key);
      assert FirstWithKey(db2.bookings, user, key) == Some(|db.bookings|);
    }
  }

  // ---------------------------------------------------------------------
  // `create` on the store
  // ---------------------------------------------------------------------

  /** BookingCreateSerializer.create against the store: the idempotency
      lookup first, then one transaction whose every error restores the
      rows it had written. */
  method Create(db: Store, user: UserId, req: BookingRequest, ip: Option<string>, now: string)
    returns (r: Result<BookingId, CreateError>)
    requires db.Valid() && Validate(req).Ok? && RequestRefsExist(db.State(), req)
    modifies db
    ensures db.Valid()
    ensures (r, db.State()) == ReserveSpec(old(db.State()), user, req, ip, now)
  {
    ReserveKeepsInvariant(db.State(), user, req, ip, now);
    var key := req.idempotencyKey;
    if key.Some? && key.value != "" {
      var existing := FirstWithKey(db.bookings, user, key.value);
      if existing.Some? {
        return Ok(existing.value);
      }
    }
    if req.bookingType == VehicleBooking {
      r := ReserveVehicle(db, user, req, ip, now);
    } else {
      r := ReserveSafari(db, user, req, ip, now);
    }
  }

  /** The vehicle path. As in the source, the booking row is written before
      the dates are marked, and an error in the loop rolls both back. */
  method ReserveVehicle(db: Store, user: UserId, req: BookingRequest, ip: Option<string>, now: string)
    returns (r: Result<BookingId, CreateError>)
    requires req.vehicle.Some?
    modifies db
    ensures (r, db.State()) == VehicleSpec(old(db.State()), user, req, ip, now)
  {
    var savedAvailability, savedBookings := db.availability, db.bookings;
    var vehicle := req.vehicle.value;
    var start := req.startDate;
    var end := EndOf(req);
    if ConflictExists(db.availability, vehicle, start, end) {
      return Err(Unavailable);
    }
    if req.userKeyword.Some? {
      return Err(DuplicateUserKeyword);
    }
    var id := |db.bookings|;
    db.bookings := db.bookings + [NewBooking(user, req)];
    var cur := start;
    while cur <= end
      invariant cur <= end + 1 || cur == start
      invariant db.bookings == savedBookings + [NewBooking(user, req)]
      invariant db.vehicles == old(db.vehicles) && db.safaris == old(db.safaris)
      invariant db.payments == old(db.payments) && db.invoices == old(db.invoices) && db.tasks == old(db.tasks)
      invariant MarkFrom(db.availability, vehicle, cur, end) == MarkFrom(savedAvailability, vehicle, start, end)
      decreases end + 1 - cur
    {
      var hits := Matching(db.availability, vehicle, cur);
      if |hits| == 0 {
        db.availability := db.availability + [VehicleAvailability(vehicle, cur, true)];
      } else if |hits| > 1 {
        db.availability, db.bookings := savedAvailability, savedBookings;
        return Err(MultipleRecords);
      } else if db.availability[hits[0]].isBooked {
        db.availability, db.bookings := savedAvailability, savedBookings;
        return Err(BookedConcurrently);
      } else {
        db.availability := db.availability[hits[0] := db.availability[hits[0]].(isBooked := true)];
      }
      cur := cur + 1;
    }
    assert MarkFrom(db.availability, vehicle, cur, end) == Ok(db.availability);
    db.bookings := db.bookings[id := Stamped(db.bookings[id], ip, now)];
    assert db.bookings == savedBookings + [Stamped(NewBooking(user, req), ip, now)];
    r := Ok(id);
  }

  /** The safari path: the seat counter is decremented in place before the
      booking row is written; an error restores the counter. */
  method ReserveSafari(db: Store, user: UserId, req: BookingRequest, ip: Option<string>, now: string)
    returns (r: Result<BookingId, CreateError>)
    requires req.safari.Some? && req.safari.value < |db.safaris|
    modifies db
    ensures (r, db.State()) == SafariSpec(old(db.State()), user, req, ip, now)
  {
    var savedSafaris := db.safaris;
    var safari := req.safari.value;
    var pax := req.pax.GetOr(DefaultPax);
    if db.safaris[safari].seatsAvailable < pax {
      return Err(NotEnoughSeats);
    }
    db.safaris := db.safaris[safari := db.safaris[safari].(seatsAvailable := db.safaris[safari].seatsAvailable - pax)];
    if req.userKeyword.Some? {
      db.safaris := savedSafaris;
      return Err(DuplicateUserKeyword);
    }
    var id := |db.bookings|;
    db.bookings := db.bookings + [NewBooking(user, req)];
    db.bookings := db.bookings[id := Stamped(db.bookings[id], ip, now)];
    assert db.bookings == old(db.bookings) + [Stamped(NewBooking(user, req), ip, now)];
    r := Ok(id);
  }
}

=== FILE: models.dfy ===
/** Record shapes, enumerations, defaults and table constraints of the
    booking platform (api/models.py), plus the in-memory database that the
    reservation and payment operations update.

    Primary keys are positions: the booking with id `b` is `bookings[b]`,
    and so on for every table. Dates are day numbers (one day is +1).
    Money (a decimal in the database) is an opaque integer: no operation in
    the core does arithmetic on it. */
module Models {

  datatype Option<+T> = None | Some(value: T) {
    function GetOr(default: T): T {
      if Some? then value else default
    }
  }

  datatype Result<+T, +E> = Ok(value: T) | Err(error: E)

  type UserId = nat
  type VehicleId = nat
  type SafariId = nat
  type BookingId = nat
  type PaymentId = nat
  type Date = int
  type Money = int

  /** User.role choices (new users are customers). */
  datatype Role = Customer | Admin | Staff

  /** Booking.booking_type choices. */
  datatype BookingType = VehicleBooking | SafariBooking

  /** Booking.status choices; a new booking is pending. */
  datatype BookingStatus = Pending | Confirmed | Cancelled | Completed
  const DefaultBookingStatus: BookingStatus := Pending

  /** Payment.status choices. */
  datatype PaymentStatus = PaymentPending | Success | Failed | Refunded

  const DefaultPax: nat := 1

  /** The values the core writes into the free-form Booking.details object. */
  datatype JsonValue = JNull | JString(text: string)
  type Details = map<string, JsonValue>

  datatype Vehicle = Vehicle(
    category: nat,
    name: string,
    seats: int,
    dailyRate: Money,
    withDriver: bool,      // defaults to true
    isAvailable: bool)     // defaults to true

  /** One availability row. Nothing makes (vehicle, date) unique, and
      `isBooked` defaults to false. */
  datatype VehicleAvailability = VehicleAvailability(vehicle: VehicleId, date: Date, isBooked: bool)

  /** `seatsAvailable` is an unconstrained integer column. */
  datatype SafariPackage = SafariPackage(
    name: string,
    region: string,
    durationDays: int,
    basePrice: Money,
    seatsAvailable: int)

  /** `pax` is a non-negative integer defaulting to 1; `endDate` may be null;
      `idempotencyKey` is indexed but not unique. */
  datatype Booking = Booking(
    user: UserId,
    bookingType: BookingType,
    vehicle: Option<VehicleId>,
    safari: Option<SafariId>,
    startDate: Date,
    endDate: Option<Date>,
    pax: nat,
    totalPrice: Money,
    status: BookingStatus,
    idempotencyKey: Option<string>,
    details: Option<Details>)

  /** `booking` is one-to-one, `transactionRef` is unique. */
  datatype Payment = Payment(
    booking: BookingId,
    provider: string,
    amount: Money,
    currency: string,
    status: PaymentStatus,
    transactionRef: string)

  /** `payment` is one-to-one. */
  datatype Invoice = Invoice(payment: PaymentId, pdfUrl: Option<string>)

  /** A background job handed to the task queue with `.delay(...)`. */
  datatype Task = SendBookingEmail(booking: BookingId) | GenerateInvoiceAndEmail(payment: PaymentId)

  /** The whole database as a value. */
  datatype Db = Db(
    vehicles: seq<Vehicle>,
    availability: seq<VehicleAvailability>,
    safaris: seq<SafariPackage>,
    bookings: seq<Booking>,
    payments: seq<Payment>,
    invoices: seq<Invoice>,
    tasks: seq<Task>)

  predicate BookingRefsValid(db: Db, b: Booking) {
    && (b.vehicle.Some? ==> b.vehicle.value < |db.vehicles|)
    && (b.safari.Some? ==> b.safari.value < |db.safaris|)
  }

  predicate TaskRefsValid(db: Db, t: Task) {
    match t
    case SendBookingEmail(b) => b < |db.bookings|
    case GenerateInvoiceAndEmail(p) => p < |db.payments|
  }

  /** Foreign keys point at existing rows, Payment.booking and Invoice.payment
      are one-to-one, Payment.transaction_ref is unique. Deliberately absent,
      because the schema does not have them: uniqueness of (user,
      idempotency key), uniqueness of (vehicle, date), a lower bound on seats. */
  ghost predicate Inv(db: Db) {
    && (forall i :: 0 <= i < |db.availability| ==> db.availability[i].vehicle < |db.vehicles|)
    && (forall i :: 0 <= i < |db.bookings| ==> BookingRefsValid(db, db.bookings[i]))
    && (forall i :: 0 <= i < |db.payments| ==> db.payments[i].booking < |db.bookings|)
    && (forall i, j :: 0 <= i < j < |db.payments| ==> db.payments[i].booking != db.payments[j].booking)
    && (forall i, j :: 0 <= i < j < |db.payments| ==> db.payments[i].transactionRef != db.payments[j].transactionRef)
    && (forall i :: 0 <= i < |db.invoices| ==> db.invoices[i].payment < |db.payments|)
    && (forall i, j :: 0 <= i < j < |db.invoices| ==> db.invoices[i].payment != db.invoices[j].payment)
    && (forall i :: 0 <= i < |db.tasks| ==> TaskRefsValid(db, db.tasks[i]))
  }

  /** The database the operations read and write in place: one field per
      table, plus the log of enqueued background tasks. */
  class Store {
    var vehicles: seq<Vehicle>
    var availability: seq<VehicleAvailability>
    var safaris: seq<SafariPackage>
    var bookings: seq<Booking>
    var payments: seq<Payment>
    var invoices: seq<Invoice>
    var tasks: seq<Task>

    function State(): Db
      reads this
    {
      Db(vehicles, availability, safaris, bookings, payments, invoices, tasks)
    }

    ghost predicate Valid()
      reads this
    {
      Inv(State())
    }

    constructor (vehicles: seq<Vehicle>, safaris: seq<SafariPackage>)
      ensures Valid()
      ensures State() == Db(vehicles, [], safaris, [], [], [], [])
    {
      this.vehicles := vehicles;
      this.safaris := safaris;
      availability, bookings, payments, invoices, tasks := [], [], [], [], [];
    }
  }

  /** The index on `transaction_ref` is unique, so a lookup by reference
      names at most one payment. */
  lemma PaymentByReferenceUnique(db: Db, i: nat, j: nat)
    requires Inv(db)
    requires i < |db.payments| && j < |db.payments|
    requires db.payments[i].transactionRef == db.payments[j].transactionRef
    ensures i == j
  {
  }

  /** Sample rows used by the lemmas below. */
  function SampleBooking(user: UserId, key: string): Booking {
    Booking(user, SafariBooking, None, None, 0, None, DefaultPax, 0, DefaultBookingStatus, Some(key), None)
  }

  /** Nothing in the schema stops two bookings of one user from carrying the
      same idempotency key. */
  lemma IdempotencyKeyNotUnique(user: UserId, key: string)
    ensures exists db :: (Inv(db) && |db.bookings| == 2 &&
      db.bookings[0].user == db.bookings[1].user == user &&
      db.bookings[0].idempotencyKey == db.bookings[1].idempotencyKey == Some(key))
  {
    var b := SampleBooking(user, key);
    var db := Db([], [], [], [b, b], [], [], []);
    assert Inv(db);
  }

  /** Nothing in the schema stops two availability rows for the same vehicle
      and date, nor a negative seat counter. */
  lemma AvailabilityAndSeatsUnconstrained(v: Vehicle, d: Date, seats: int)
    ensures exists db :: (Inv(db) && |db.availability| == 2 &&
      db.availability[0].vehicle == db.availability[1].vehicle &&
      db.availability[0].date == db.availability[1].date == d &&
      |db.safaris| == 1 && db.safaris[0].seatsAvailable == seats)
  {
    var row := VehicleAvailability(0, d, false);
    var db := Db([v], [row, row], [SafariPackage("", "", 0, 0, seats)], [], [], [], []);
    assert Inv(db);
  }
}

=== FILE: permissions.dfy ===
/** The access predicates of the REST layer (api/permissions.py): pure
    functions of the request method, the requester and, for the object-level
    check, the object's owner. */
module Permissions {
  import opened Models

  /** `request.user`: either the anonymous user, which is not authenticated
      and has no `role` attribute, or a signed-in account, which always is
      authenticated and always has a role. */
  datatype Requester = Anonymous | Account(id: UserId, role: Role)

  /** The framework's SAFE_METHODS. */
  const SafeMethods: seq<string> := ["GET", "HEAD", "OPTIONS"]

  predicate IsSafe(verb: string) {
    verb in SafeMethods
  }

  predicate IsAuthenticated(user: Requester) {
    user.Account?
  }

  /** IsAdminOrReadOnly.has_permission: reads for everyone, writes for
      administrators only. */
  function IsAdminOrReadOnly(verb: string, user: Requester): (granted: bool)
    ensures IsSafe(verb) ==> granted
    ensures !IsSafe(verb) ==> (granted <==> IsAuthenticated(user) && user.role == Admin)
  {
    if IsSafe(verb) then true
    else IsAuthenticated(user) && user.role == Admin
  }

  /** IsAuthenticatedOrReadOnly.has_permission: reads for everyone, writes
      for any signed-in user. */
  function IsAuthenticatedOrReadOnly(verb: string, user: Requester): (granted: bool)
    ensures IsSafe(verb) ==> granted
    ensures !IsSafe(verb) ==> (granted <==> IsAuthenticated(user))
  {
    if IsSafe(verb) then true
    else IsAuthenticated(user)
  }

  /** IsOwnerOrAdmin.has_object_permission. `owner` is the object's `user`
      attribute (None when the object has none). The check reads
      `request.user.role` first, which raises for the anonymous user: that
      outcome is None. */
  function IsOwnerOrAdmin(user: Requester, owner: Option<UserId>): (granted: Option<bool>)
    ensures granted.None? <==> user.Anonymous?
    ensures user.Account? && user.role == Admin ==> granted == Some(true)
    ensures user.Account? && user.role != Admin ==> (granted == Some(true) <==> owner == Some(user.id))
    ensures owner.None? && user.Account? && user.role != Admin ==> granted == Some(false)
  {
    match user
    case Anonymous => None
    case Account(id, role) =>
      if role == Admin then Some(true)
      else Some(owner == Some(id))
  }

  /** IsCustomerOrAdmin.has_permission: signed-in customers and
      administrators, whatever the method. */
  function IsCustomerOrAdmin(verb: string, user: Requester): (granted: bool)
    ensures granted <==> IsAuthenticated(user) && user.role in {Customer, Admin}
    ensures IsAuthenticated(user) && user.role == Staff ==> !granted
  {
    match user
    case Anonymous => false
    case Account(_, role) => role == Customer || role == Admin
  }

  /** RoleBasedPermission.has_permission: reads for everyone, anything else
      only for a user whose role is admin; a user without a `role` attribute
      is refused. */
  function RoleBasedPermission(verb: string, user: Requester): (granted: bool)
    ensures IsSafe(verb) ==> granted
    ensures !IsSafe(verb) ==> (granted <==> user.Account? && user.role == Admin)
    ensures user.Anonymous? ==> (granted <==> IsSafe(verb))
  {
    if IsSafe(verb) then true
    else if user.Account? then user.role == Admin
    else false
  }

  /** Every request IsAdminOrReadOnly lets through, IsAuthenticatedOrReadOnly
      lets through too. */
  lemma AdminOrReadOnlyWithinAuthenticatedOrReadOnly(verb: string, user: Requester)
    ensures IsAdminOrReadOnly(verb, user) ==> IsAuthenticatedOrReadOnly(verb, user)
  {
  }

  /** RoleBasedPermission and IsAdminOrReadOnly decide every request alike:
      the anonymous user fails the `role` attribute test exactly when it fails
      the authentication test. */
  lemma RoleBasedAgreesWithAdminOrReadOnly(verb: string, user: Requester)
    ensures RoleBasedPermission(verb, user) == IsAdminOrReadOnly(verb, user)
  {
  }
}

=== FILE: views.dfy ===
/** The request handlers of api/views.py that change state: booking
    creation through BookingViewSet.perform_create, payment start
    (PaymentViewSet.start) and the payment gateway callback
    (pesapal_webhook). Background jobs started with `.delay(...)` are
    appended to the store's task log. */
module Views {
  import opened Models
  import opened BookingCreate
  import opened Permissions

  // ---------------------------------------------------------------------
  // The permission gate
  // ---------------------------------------------------------------------

  /** A handler's answer once the view's permission classes have run: 403
      when the requester is refused, the handler's own outcome otherwise. */
  datatype Gated<+T> = Forbidden | Passed(outcome: T)

  /** BookingViewSet and PaymentViewSet both declare `permission_classes =
      [IsCustomerOrAdmin]`; booking creation and payment start are POSTs. */
  predicate MayWrite(requester: Requester) {
    IsCustomerOrAdmin("POST", requester)
  }

  // ---------------------------------------------------------------------
  // BookingViewSet.perform_create
  // ---------------------------------------------------------------------

  /** The permission gate, then `serializer.save()` followed by
      `send_booking_email.delay(booking.id)`: the e-mail job is enqueued for
      every booking the serializer returns, including one returned by an
      idempotent retry. */
  function PerformCreateSpec(db: Db, requester: Requester, req: BookingRequest, ip: Option<string>, now: string)
    : (res: (Gated<Result<BookingId, CreateError>>, Db))
    requires Validate(req).Ok? && RequestRefsExist(db, req)
    ensures res.0 == Forbidden <==> !MayWrite(requester)
    ensures res.0 == Forbidden || res.0.outcome.Err? ==> res.1 == db
    ensures res.0.Passed? && res.0.outcome.Ok? ==>
      res.1.tasks == db.tasks + [SendBookingEmail(res.0.outcome.value)]
    ensures MayWrite(requester) && Replayed(db.bookings, requester.id, req.idempotencyKey).Some? ==>
      var b := Replayed(db.bookings, requester.id, req.idempotencyKey).value;
      res == (Passed(Ok(b)), db.(tasks := db.tasks + [SendBookingEmail(b)]))
  {
    if !MayWrite(requester) then (Forbidden, db)
    else
      var (r, db2) := ReserveSpec(db, requester.id, req, ip, now);
      if r.Ok? then (Passed(r), db2.(tasks := db2.tasks + [SendBookingEmail(r.value)])) else (Passed(r), db2)
  }

  /** perform_create as written: `serializer.save(user=request.user)` merges
      a "user" entry into the validated data, which `create` then passes to
      Booking.objects.create next to its own `user=` argument. Every request
      that passes the gate and is not an idempotent retry fails, and the
      database is unchanged. */
  function PerformCreateAsWritten(db: Db, requester: Requester, req: BookingRequest, ip: Option<string>, now: string)
    : (res: (Gated<Result<BookingId, CreateError>>, Db))
    requires Validate(req).Ok? && RequestRefsExist(db, req)
    ensures !MayWrite(requester) ==> res == (Forbidden, db)
    ensures MayWrite(requester) && Replayed(db.bookings, requester.id, req.idempotencyKey).None? ==>
      res.0.Passed? && res.0.outcome.Err? && res.1 == db
  {
    if !MayWrite(requester) then (Forbidden, db)
    else PerformCreateSpec(db, requester, req.(userKeyword := Some(requester.id)), ip, now)
  }

  /** A customer's first booking of a vehicle with no availability rows:
      the code as written refuses it with the duplicate-keyword error, the
      corrected handler books the day and enqueues one e-mail. */
  lemma AsWrittenRefusesFreshBooking()
    ensures var db := Db([Vehicle(0, "Land Cruiser", 7, 100, true, true)], [], [], [], [], [], []);
      var req := BookingRequest(VehicleBooking, Some(0), None, 10, None, None, 100, None, None);
      var customer := Account(1, Customer);
      && PerformCreateAsWritten(db, customer, req, None, "t").0 == Passed(Err(DuplicateUserKeyword))
      && PerformCreateSpec(db, customer, req, None, "t").0 == Passed(Ok(0))
      && BookedOn(PerformCreateSpec(db, customer, req, None, "t").1.availability, 0, 10)
      && PerformCreateSpec(db, customer, req, None, "t").1.tasks == [SendBookingEmail(0)]
  {
    var db := Db([Vehicle(0, "Land Cruiser", 7, 100, true, true)], [], [], [], [], [], []);
    var req := BookingRequest(VehicleBooking, Some(0), None, 10, None, None, 100, None, None);
    assert !ConflictExists(db.availability, 0, 10, 10);
    assert Replayed(db.bookings, 1, None).None?;
    PerformCreateSucceeds(db, Account(1, Customer), req, None, "t");
  }

  /** The corrected handler (no `user` keyword passed to `save`): for a
      customer or administrator, a new vehicle booking whose range holds no
      booked row and no duplicate rows succeeds and books the range; a new
      safari booking with enough seats succeeds; either way exactly one
      e-mail job is enqueued. */
  lemma PerformCreateSucceeds(db: Db, requester: Requester, req: BookingRequest, ip: Option<string>, now: string)
    requires Validate(req).Ok? && RequestRefsExist(db, req)
    requires MayWrite(requester)
    requires req.userKeyword.None?
    requires Replayed(db.bookings, requester.id, req.idempotencyKey).None?
    requires req.bookingType == VehicleBooking ==>
      && !ConflictExists(db.availability, req.vehicle.value, req.startDate, EndOf(req))
      && NoDuplicateRows(db.availability, req.vehicle.value, req.startDate, EndOf(req))
    requires req.bookingType == SafariBooking ==>
      db.safaris[req.safari.value].seatsAvailable >= req.pax.GetOr(DefaultPax)
    ensures var (r, db2) := PerformCreateSpec(db, requester, req, ip, now);
      && r == Passed(Ok(|db.bookings|))
      && db2.bookings[|db.bookings|].user == requester.id
      && db2.tasks == db.tasks + [SendBookingEmail(|db.bookings|)]
      && (req.bookingType == VehicleBooking ==>
            Reserved(db.availability, db2.availability, req.vehicle.value, req.startDate, EndOf(req)))
  {
    if req.bookingType == VehicleBooking {
      VehicleReservation(db, requester.id, req, ip, now);
    } else {
      SafariReservation(db, requester.id, req, ip, now);
    }
  }

  /** BookingViewSet's create path with the serializer saved without the
      extra `user` keyword (see PerformCreateAsWritten for the code as
      written). */
  method PerformCreate(db: Store, requester: Requester, req: BookingRequest, ip: Option<string>, now: string)
    returns (r: Gated<Result<BookingId, CreateError>>)
    requires db.Valid() && Validate(req).Ok? && RequestRefsExist(db.State(), req)
    requires req.userKeyword.None?
    modifies db
    ensures db.Valid()
    ensures (r, db.State()) == PerformCreateSpec(old(db.State()), requester, req, ip, now)
  {
    if !MayWrite(requester) {
      return Forbidden;
    }
    var created := Create(db, requester.id, req, ip, now);
    r := Passed(created);
    if created.Ok? {
      ghost var before := db.State();
      db.tasks := db.tasks + [SendBookingEmail(created.value)];
      assert forall i :: 0 <= i < |before.tasks| ==> TaskRefsValid(db.State(), db.tasks[i]) by {
        forall i | 0 <= i < |before.tasks| ensures TaskRefsValid(db.State(), db.tasks[i]) {
          assert TaskRefsValid(before, before.tasks[i]);
        }
      }
    }
  }

  // ---------------------------------------------------------------------
  // PaymentViewSet.start
  // ---------------------------------------------------------------------

  datatype StartOutcome =
    | BookingNotFound       // 404
    | PaymentExists         // 400
    | DuplicateReference    // the unique index refuses the insert (500)
    | Started(transactionRef: string, status: PaymentStatus)   // 201

  predicate IsStarted(out: Gated<StartOutcome>) {
    out.Passed? && out.outcome.Started?
  }

  /** The booking has a payment already (`hasattr(booking, "payment")`). */
  predicate HasPayment(payments: seq<Payment>, b: BookingId) {
    exists i :: 0 <= i < |payments| && payments[i].booking == b
  }

  /** The booking `bookingId` exists and belongs to `user`. */
  predicate OwnsBooking(db: Db, user: UserId, bookingId: Option<nat>) {
    bookingId.Some? && bookingId.value < |db.bookings| && db.bookings[bookingId.value].user == user
  }

  /** The permission gate, then the guard and insert of `start`; `txRef` is
      the freshly drawn uuid4. */
  function StartSpec(db: Db, requester: Requester, bookingId: Option<nat>, txRef: string): (res: (Gated<StartOutcome>, Db))
    ensures !IsStarted(res.0) ==> res.1 == db
    ensures res.0 == Forbidden <==> !MayWrite(requester)
    ensures res.0 == Passed(BookingNotFound) <==>
      MayWrite(requester) && !OwnsBooking(db, requester.id, bookingId)
    ensures res.0 == Passed(PaymentExists) <==>
      MayWrite(requester) && OwnsBooking(db, requester.id, bookingId) && HasPayment(db.payments, bookingId.value)
    ensures IsStarted(res.0) <==>
      && MayWrite(requester) && OwnsBooking(db, requester.id, bookingId)
      && !HasPayment(db.payments, bookingId.value) && FindPayment(db.payments, txRef).None?
  {
    if !MayWrite(requester) then (Forbidden, db)
    else if !OwnsBooking(db, requester.id, bookingId) then (Passed(BookingNotFound), db)
    else if HasPayment(db.payments, bookingId.value) then (Passed(PaymentExists), db)
    else if FindPayment(db.payments, txRef).Some? then (Passed(DuplicateReference), db)
    else
      var b := bookingId.value;
      (Passed(Started(txRef, PaymentPending)),
       db.(payments := db.payments + [Payment(b, "pesapal", db.bookings[b].totalPrice, "UGX", PaymentPending, txRef)]))
  }

  /** A started payment is a single new pending Pesapal payment in UGX whose
      amount is the booking's total price, and nothing else changes. */
  lemma StartCreatesOnePendingPayment(db: Db, requester: Requester, bookingId: Option<nat>, txRef: string)
    requires IsStarted(StartSpec(db, requester, bookingId, txRef).0)
    ensures var (out, db2) := StartSpec(db, requester, bookingId, txRef);
      var p := db2.payments[|db.payments|];
      && out == Passed(Started(txRef, PaymentPending))
      && |db2.payments| == |db.payments| + 1
      && db2.payments[..|db.payments|] == db.payments
      && p.booking == bookingId.value && p.provider == "pesapal" && p.currency == "UGX"
      && p.status == PaymentPending && p.amount == db.bookings[bookingId.value].totalPrice
      && p.transactionRef == txRef
      && db2 == db.(payments := db2.payments)
  {
  }

  /** Once a payment has been started for a booking, any further start for
      it is refused with 400 and creates nothing. */
  lemma {:induction false} SecondStartRefused(db: Db, requester: Requester, bookingId: Option<nat>, txRef: string, txRef2: string)
    requires IsStarted(StartSpec(db, requester, bookingId, txRef).0)
    ensures var db2 := StartSpec(db, requester, bookingId, txRef).1;
      StartSpec(db2, requester, bookingId, txRef2) == (Passed(PaymentExists), db2)
  {
    var db2 := StartSpec(db, requester, bookingId, txRef).1;
    assert db2.payments[|db.payments|].booking == bookingId.value;
    assert HasPayment(db2.payments, bookingId.value);
  }

  /** `start` keeps every table constraint: the guard is what keeps
      Payment.booking one-to-one. */
  lemma StartKeepsInvariant(db: Db, requester: Requester, bookingId: Option<nat>, txRef: string)
    requires Inv(db)
    ensures Inv(StartSpec(db, requester, bookingId, txRef).1)
  {
    var (out, db2) := StartSpec(db, requester, bookingId, txRef);
    if IsStarted(out) {
      assert forall i :: 0 <= i < |db.payments| ==> db.payments[i].booking != bookingId.value;
      assert forall i :: 0 <= i < |db.payments| ==> db.payments[i].transactionRef != txRef;
      assert forall i :: 0 <= i < |db2.tasks| ==> TaskRefsValid(db2, db2.tasks[i]) by {
        forall i | 0 <= i < |db2.tasks| ensures TaskRefsValid(db2, db2.tasks[i]) {
          assert TaskRefsValid(db, db.tasks[i]);
        }
      }
      assert forall i :: 0 <= i < |db2.invoices| ==> db2.invoices[i].payment < |db2.payments|;
    }
  }

  /** PaymentViewSet.start up to the payment insert; `txRef` stands for
      `str(uuid.uuid4())`. */
  method Start(db: Store, requester: Requester, bookingId: Option<nat>, txRef: string) returns (out: Gated<StartOutcome>)
    requires db.Valid()
    modifies db
    ensures db.Valid()
    ensures (out, db.State()) == StartSpec(old(db.State()), requester, bookingId, txRef)
  {
    StartKeepsInvariant(db.State(), requester, bookingId, txRef);
    if !MayWrite(requester) {
      return Forbidden;
    }
    if !OwnsBooking(db.State(), requester.id, bookingId) {
      return Passed(BookingNotFound);
    }
    var booking := db.bookings[bookingId.value];
    if HasPayment(db.payments, bookingId.value) {
      return Passed(PaymentExists);
    }
    if FindPayment(db.payments, txRef).Some? {
      return Passed(DuplicateReference);
    }
    db.payments := db.payments + [Payment(bookingId.value, "pesapal", booking.totalPrice, "UGX", PaymentPending, txRef)];
    out := Passed(Started(txRef, PaymentPending));
  }

  // ---------------------------------------------------------------------
  // pesapal_webhook
  // ---------------------------------------------------------------------

  datatype WebhookOutcome = MissingReference | PaymentNotFound | AlreadyProcessed | PaymentConfirmed | PaymentFailed

  /** The HTTP status of each outcome. */
  function StatusCode(out: WebhookOutcome): (code: int)
    ensures code == 400 <==> out == MissingReference
    ensures code == 404 <==> out == PaymentNotFound
    ensures code == 200 <==> out in {AlreadyProcessed, PaymentConfirmed, PaymentFailed}
  {
    match out
    case MissingReference => 400
    case PaymentNotFound => 404
    case _ => 200
  }

  /** `request.data or request.query_params`: the body when it is not
      empty, the query string otherwise. */
  function RequestData(body: map<string, string>, query: map<string, string>): map<string, string> {
    if |body| > 0 then body else query
  }

  function Param(data: map<string, string>, name: string): Option<string> {
    if name in data then Some(data[name]) else None
  }

  /** Upper-casing of one character: ASCII letters only. */
  function Upper(c: char): char {
    if 'a' <= c <= 'z' then (c as int - 32) as char else c
  }

  function UpperAll(s: string): (r: string)
    ensures |r| == |s| && forall i :: 0 <= i < |s| ==> r[i] == Upper(s[i])
  {
    seq(|s|, i requires 0 <= i < |s| => Upper(s[i]))
  }

  /** `status_str and status_str.upper() == "COMPLETED"`. */
  function IsCompleted(status: Option<string>): (b: bool)
    ensures b <==> (status.Some? && |status.value| == 9 &&
      forall i :: 0 <= i < 9 ==> Upper(status.value[i]) == "COMPLETED"[i])
  {
    status.Some? && status.value != "" && UpperAll(status.value) == "COMPLETED"
  }

  /** A status counts as completed exactly when each of its nine letters is
      the corresponding letter of "COMPLETED" in either case. */
  lemma CompletedExactlyInAnyCase(s: string)
    ensures IsCompleted(Some(s)) <==>
      (|s| == 9 && forall i :: 0 <= i < 9 ==> s[i] == "COMPLETED"[i] || s[i] == "completed"[i])
  {
    if |s| == 9 && forall i :: 0 <= i < 9 ==> s[i] == "COMPLETED"[i] || s[i] == "completed"[i] {
      assert UpperAll(s) == "COMPLETED";
    }
  }

  /** "COMPLETED" is recognised whatever the letter case; nothing else
      (a prefix, another word, an absent status) is. */
  lemma CompletedInAnyCase()
    ensures IsCompleted(Some("COMPLETED")) && IsCompleted(Some("completed")) && IsCompleted(Some("Completed"))
    ensures !IsCompleted(Some("COMPLETE")) && !IsCompleted(Some("FAILED")) && !IsCompleted(Some("")) && !IsCompleted(None)
  {
    assert UpperAll("completed") == "COMPLETED";
    assert UpperAll("Completed") == "COMPLETED";
    assert UpperAll("COMPLETED") == "COMPLETED";
    assert Upper('F') != 'C';
  }

  /** `Payment.objects.get(transaction_ref=ref)`: the payment carrying the
      reference, if any. */
  function FindPayment(payments: seq<Payment>, ref: string): (r: Option<PaymentId>)
    ensures r.Some? ==> r.value < |payments| && payments[r.value].transactionRef == ref
    ensures r.None? <==> forall j :: 0 <= j < |payments| ==> payments[j].transactionRef != ref
    decreases |payments|
  {
    if |payments| == 0 then None
    else
      var last := |payments| - 1;
      match FindPayment(payments[..last], ref)
      case Some(i) => Some(i)
      case None => if payments[last].transactionRef == ref then Some(last) else None
  }

  /** The callback's state machine on Payment.status: the outcome and the
      database after it. */
  function Reconcile(db: Db, reference: Option<string>, status: Option<string>): (res: (WebhookOutcome, Db))
    requires Inv(db)
    ensures res.0 in {MissingReference, PaymentNotFound, AlreadyProcessed} ==> res.1 == db
    ensures res.0 == MissingReference <==> reference.None? || reference.value == ""
    ensures res.0 == PaymentNotFound <==> (reference.Some? && reference.value != "" &&
      forall j :: 0 <= j < |db.payments| ==> db.payments[j].transactionRef != reference.value)
    ensures res.1.vehicles == db.vehicles && res.1.availability == db.availability
    ensures res.1.safaris == db.safaris && res.1.invoices == db.invoices
    ensures |res.1.bookings| == |db.bookings| && |res.1.payments| == |db.payments|
  {
    if reference.None? || reference.value == "" then (MissingReference, db)
    else
      match FindPayment(db.payments, reference.value)
      case None => (PaymentNotFound, db)
      case Some(p) =>
        var payment := db.payments[p];
        if payment.status == Success then (AlreadyProcessed, db)
        else if IsCompleted(status) then
          var b := payment.booking;
          (PaymentConfirmed,
           db.(payments := db.payments[p := payment.(status := Success)],
               bookings := db.bookings[b := db.bookings[b].(status := Confirmed)],
               tasks := db.tasks + [GenerateInvoiceAndEmail(p), SendBookingEmail(b)]))
        else
          (PaymentFailed, db.(payments := db.payments[p := payment.(status := Failed)]))
  }

  /** The payment a callback for its reference acts on is that payment: the
      reference is unique. */
  lemma {:induction false} FindsTheOnePayment(db: Db, p: PaymentId)
    requires Inv(db) && p < |db.payments|
    ensures FindPayment(db.payments, db.payments[p].transactionRef) == Some(p)
  {
    var f := FindPayment(db.payments, db.payments[p].transactionRef);
    PaymentByReferenceUnique(db, f.value, p);
  }

  /** A payment already in `success` is left alone: the callback answers
      "already processed" and changes nothing. */
  lemma ReconcileAlreadyProcessed(db: Db, p: PaymentId, status: Option<string>)
    requires Inv(db) && p < |db.payments| && db.payments[p].status == Success
    requires db.payments[p].transactionRef != ""
    ensures Reconcile(db, Some(db.payments[p].transactionRef), status) == (AlreadyProcessed, db)
  {
    FindsTheOnePayment(db, p);
  }

  /** "COMPLETED" in any case moves a payment that is not yet successful,
      including a failed or refunded one, to `success` and its booking to
      `confirmed`, enqueues one invoice job and one e-mail job, and touches
      no other payment or booking. */
  lemma ReconcileConfirms(db: Db, p: PaymentId, status: Option<string>)
    requires Inv(db) && p < |db.payments| && db.payments[p].status != Success
    requires db.payments[p].transactionRef != ""
    requires IsCompleted(status)
    ensures var (out, db2) := Reconcile(db, Some(db.payments[p].transactionRef), status);
      var b := db.payments[p].booking;
      && out == PaymentConfirmed
      && db2.payments[p].status == Success
      && db2.payments[p] == db.payments[p].(status := Success)
      && (forall q :: 0 <= q < |db.payments| && q != p ==> db2.payments[q] == db.payments[q])
      && db2.bookings[b].status == Confirmed
      && db2.bookings[b] == db.bookings[b].(status := Confirmed)
      && (forall c :: 0 <= c < |db.bookings| && c != b ==> db2.bookings[c] == db.bookings[c])
      && db2.tasks == db.tasks + [GenerateInvoiceAndEmail(p), SendBookingEmail(b)]
  {
    FindsTheOnePayment(db, p);
  }

  /** Only `success` is guarded: a refunded or failed payment is confirmed
      again by a later "COMPLETED" callback. */
  lemma RefundedPaymentReconfirmed(db: Db, p: PaymentId)
    requires Inv(db) && p < |db.payments| && db.payments[p].status in {Failed, Refunded}
    requires db.payments[p].transactionRef != ""
    ensures Reconcile(db, Some(db.payments[p].transactionRef), Some("completed")).1.payments[p].status == Success
  {
    CompletedInAnyCase();
    ReconcileConfirms(db, p, Some("completed"));
  }

  /** Any other or absent status marks a payment that is not yet successful
      as failed and leaves its booking (and every booking) and the task log
      as they were. */
  lemma ReconcileFails(db: Db, p: PaymentId, status: Option<string>)
    requires Inv(db) && p < |db.payments| && db.payments[p].status != Success
    requires db.payments[p].transactionRef != ""
    requires !IsCompleted(status)
    ensures var (out, db2) := Reconcile(db, Some(db.payments[p].transactionRef), status);
      && out == PaymentFailed
      && db2.payments == db.payments[p := db.payments[p].(status := Failed)]
      && db2.bookings == db.bookings
      && db2.tasks == db.tasks
  {
    FindsTheOnePayment(db, p);
  }

  /** The callback keeps every table constraint. */
  lemma ReconcileKeepsInvariant(db: Db, reference: Option<string>, status: Option<string>)
    requires Inv(db)
    ensures Inv(Reconcile(db, reference, status).1)
  {
    var (out, db2) := Reconcile(db, reference, status);
    if out == PaymentConfirmed || out == PaymentFailed {
      var p := FindPayment(db.payments, reference.value).value;
      assert forall i :: 0 <= i < |db.payments| ==> db2.payments[i].booking == db.payments[i].booking;
      assert forall i :: 0 <= i < |db.payments| ==> db2.payments[i].transactionRef == db.payments[i].transactionRef;
      assert forall i :: 0 <= i < |db.bookings| ==> db2.bookings[i].vehicle == db.bookings[i].vehicle && db2.bookings[i].safari == db.bookings[i].safari;
      assert forall i :: 0 <= i < |db.bookings| ==> BookingRefsValid(db2, db2.bookings[i]) by {
        forall i | 0 <= i < |db.bookings| ensures BookingRefsValid(db2, db2.bookings[i]) {
          assert BookingRefsValid(db, db.bookings[i]);
        }
      }
      assert forall i :: 0 <= i < |db2.tasks| ==> TaskRefsValid(db2, db2.tasks[i]) by {
        forall i | 0 <= i < |db2.tasks| ensures TaskRefsValid(db2, db2.tasks[i]) {
          if i < |db.tasks| {
            assert TaskRefsValid(db, db.tasks[i]);
          }
        }
      }
    }
  }

  /** Replaying a callback that confirmed a payment answers "already
      processed" and changes nothing, whatever status the replay carries:
      two deliveries have the effect of one, with no further jobs. */
  lemma {:induction false} ReconcileIdempotent(db: Db, reference: Option<string>, status: Option<string>, status2: Option<string>)
    requires Inv(db)
    requires Reconcile(db, reference, status).0 == PaymentConfirmed
    ensures var db2 := Reconcile(db, reference, status).1;
      Inv(db2) && Reconcile(db2, reference, status2) == (AlreadyProcessed, db2)
  {
    var db2 := Reconcile(db, reference, status).1;
    var p := FindPayment(db.payments, reference.value).value;
    ReconcileKeepsInvariant(db, reference, status);
    assert db2.payments[p].transactionRef == reference.value;
    assert db2.payments[p].status == Success;
    FindsTheOnePayment(db2, p);
  }

  /** pesapal_webhook: read the reference and status from the body (or the
      query string when the body is empty), then run the state machine
      inside one transaction. */
  method PesapalWebhook(db: Store, body: map<string, string>, query: map<string, string>) returns (out: WebhookOutcome)
    requires db.Valid()
    modifies db
    ensures db.Valid()
    ensures (out, db.State()) ==
      Reconcile(old(db.State()), Param(RequestData(body, query), "reference"), Param(RequestData(body, query), "status"))
  {
    var data := RequestData(body, query);
    var txRef := Param(data, "reference");
    var statusStr := Param(data, "status");
    ReconcileKeepsInvariant(db.State(), txRef, statusStr);
    if txRef.None? || txRef.value == "" {
      return MissingReference;
    }
    var found := FindPayment(db.payments, txRef.value);
    if found.None? {
      return PaymentNotFound;
    }
    var p := found.value;
    var payment := db.payments[p];
    if payment.status == Success {
      return AlreadyProcessed;
    }
    if IsCompleted(statusStr) {
      db.payments := db.payments[p := payment.(status := Success)];
      var b := payment.booking;
      db.bookings := db.bookings[b := db.bookings[b].(status := Confirmed)];
      db.tasks := db.tasks + [GenerateInvoiceAndEmail(p), SendBookingEmail(b)];
      out := PaymentConfirmed;
    } else {
      db.payments := db.payments[p := payment.(status := Failed)];
      out := PaymentFailed;
    }
  }
}
